=== FILE: README.md ===
# SalaryApp payroll rules in Dafny

A model of the decision logic inside two ASP.NET Core controllers of SalaryApp, a
small HR and payroll application:

- `SalaryController` records pay periods for employees. A create request is checked in a
  fixed order: the employee exists, start ≤ end, neither date is after today, no clash
  with the employee's existing periods, the employee is not terminated. An edit request
  is checked more loosely. Delete is unconditional. The salary statement totals
  base salary + bonus − deduction. The form proposes the current calendar month as the
  default period.
- `EmployeeController` runs the employee lifecycle. Create needs the company, position,
  office and city to exist. Termination is soft: a flag plus a date. Rehire is only for
  terminated employees. Edit overwrites every field. The index lists employees whose
  flag is clear.

Each handler is a pure function over an in-memory `Store`, one map per table, keyed by
id. A POST handler returns `Ok` with the new store, or `Err` with the reason; the listing
and the statement only read the store. A refusal cannot change the store, so the
all-or-nothing transaction of the source holds by construction.
`now` is a parameter. Dates are day numbers (days since 0001-01-01, which is .NET's
`Ticks / TicksPerDay`). Amounts are whole cents.

Every foreign key the handlers load through is a non-nullable `int`, so the relationship
is required (see also lines 59-87 of `SalaryApp/Data/SalaryAppDbContext.cs`), and loading
a record with its related rows is an inner join. When a related row is missing, which the database's foreign keys rule out
anyway, the record is simply not found. The model keeps that reading:
- salary create, salary edit and the statement answer NotFound when the salary's
  employee or that employee's position is missing (`EmployeeLoads`, `RecordResolves`);
- employee edit answers NotFound when the employee's address is missing;
- the employee listing leaves out an employee whose company, position, office, address
  or city is missing (`Listable`).

Files and modules:

- `types.dfy` (`Types`): `Option`, `Result`, the error kinds, `Date` and `Money`.
- `calendar.dfy` (`Calendar`): Gregorian leap years, `DaysInMonth`, day numbers, and the
  default period.
- `entities.dfy` (`Entities`): the records, the store, identity-column ids (`FreshId`),
  and referential links.
- `salary.dfy` (`SalaryRules`): the salary handlers and the no-overlap invariant.
- `employee.dfy` (`EmployeeLifecycle`): the employee handlers and the flag/date
  consistency invariant.
- `scenarios.dfy` (`Scenarios`): one employee's path through both controllers.

Behaviour modelled as written, not as one might expect:

- The clash test only asks whether the requested start or end lies inside an existing
  closed period. A request that strictly contains an existing period is accepted
  (`CreateSalaryAcceptsContainment`, `CreateSalaryCanBreakNoOverlap`).
- The edit clash query filters on the employee id posted in the form, not the record's
  own employee id. A mismatched id can move a record onto another period of its own
  employee (`EditSalaryChecksPostedEmployee`).
- Edit never checks future dates or termination (`EditSalaryWeakerThanCreate`).
- Employee edit copies `IsTerminated` and `TerminationDate` independently, so it can
  break their link (`EditEmployeeCanBreakConsistency`).
- The default period ends on the last day of the current month. On any earlier day, the
  future-date rule rejects it (`DefaultPeriodEndsInFuture`).
- Bonus and deduction parsed in salary edit are not range-checked: the `[Range]`
  attribute is validated at binding, before the parsed values are assigned. So a negative
  amount is stored.

## Model

| member | source | states |
|---|---|---|
| Calendar.DaysInMonth | SalaryApp/Controllers/SalaryController.cs:62 | February has 28 days in a common year and 29 in a Gregorian leap year; April, June, September and November have 30; the other seven months have 31, each case stated both ways |
| Calendar.DefaultPeriod | SalaryApp/Controllers/SalaryController.cs:61-62 | the proposed period is two valid dates of today's month, and a day d of that month is valid exactly when it lies between the period's first and last day |
| Calendar.YearStep | SalaryApp/Controllers/SalaryController.cs:62 | the closed-form count of days before a year grows by 366 across a leap year and by 365 otherwise, so it agrees with the leap-year rule `DaysInMonth` uses |
| Calendar.MonthsFillYear | SalaryApp/Controllers/SalaryController.cs:62 | the twelve month lengths add up to the year length (365 or 366) |
| Calendar.DayNumberOrder | SalaryApp/Controllers/SalaryController.cs:94 | comparing day numbers orders dates exactly as the calendar does, and equal day numbers mean equal dates, so the handlers' `>` on dates is the calendar order |
| Calendar.MonthsAreContiguous | SalaryApp/Controllers/SalaryController.cs:61-62 | the day after a month's last day is the first day of the next month, or January 1st of the next year |
| Calendar.DefaultPeriodSpansMonth | SalaryApp/Controllers/SalaryController.cs:61-62 | the default period covers exactly DaysInMonth consecutive days, today among them |
| Calendar.DefaultPeriodEndsInFuture | SalaryApp/Controllers/SalaryController.cs:61-62 | the default period ends after today exactly when today is not the last day of the month |
| Entities.MaxExists | SalaryApp/Models/Salary.cs:8-9 | every non-empty set of ids has a largest element, which a new identity value is placed after |
| Entities.FreshId | SalaryApp/Models/Salary.cs:8-9 | the id given to a new row is at least 1 and greater than every id already in the table |
| SalaryRules.EndpointTestMissesContainment | SalaryApp/Controllers/SalaryController.cs:112-114 | for ordered periods, two periods intersect exactly when the endpoint test fires or the request strictly contains the existing period; in that second case the test does not fire |
| SalaryRules.CreateSalary | SalaryApp/Controllers/SalaryController.cs:71-167 | on success, the employee is found with its position and is active, start ≤ end ≤ today, no same-employee period contains either requested endpoint, and the store gains exactly the submitted salary under a new id |
| SalaryRules.CreateSalaryUnknownEmployee | SalaryApp/Controllers/SalaryController.cs:74-81 | create reports NotFound exactly when the employee is not found together with its position |
| SalaryRules.CreateSalaryReversedPeriod | SalaryApp/Controllers/SalaryController.cs:94-98 | for an employee that is found, start > end is reported as StartAfterEnd whatever the date, overlap and termination checks would say |
| SalaryRules.CreateSalaryFuturePeriod | SalaryApp/Controllers/SalaryController.cs:101-105 | for an ordered period, FuturePeriod is reported exactly when the start or end is after today, before the overlap and termination checks |
| SalaryRules.CreateSalaryOverlap | SalaryApp/Controllers/SalaryController.cs:111-121 | past the earlier checks, "already exists" is reported exactly when some salary of the same employee has s.start ≤ new.start ≤ s.end or s.start ≤ new.end ≤ s.end, terminated or not |
| SalaryRules.CreateSalaryTerminated | SalaryApp/Controllers/SalaryController.cs:123-144 | a request that passes every earlier check fails for a terminated employee and succeeds for an active one |
| SalaryRules.CreateSalaryAddsOne | SalaryApp/Controllers/SalaryController.cs:129-144 | a successful create adds exactly one salary (count + 1) carrying the submitted employee, period, bonus and deduction; existing salaries, employees and addresses are unchanged |
| SalaryRules.CreateSalaryAcceptsContainment | SalaryApp/Controllers/SalaryController.cs:111-121 | a request for [5, 25] next to an existing [10, 20] of the same employee is accepted although the periods intersect |
| SalaryRules.CreateSalaryKeepsNoOverlap | SalaryApp/Controllers/SalaryController.cs:111-144 | create keeps every salary period ordered and every employee's periods pairwise disjoint, unless the request strictly contains one of that employee's periods |
| SalaryRules.CreateSalaryCanBreakNoOverlap | SalaryApp/Controllers/SalaryController.cs:111-121 | a strictly containing request turns a store without overlaps into one with overlapping periods |
| SalaryRules.EditSalary | SalaryApp/Controllers/SalaryController.cs:207-327 | on success, ids match, the record exists with its employee and position, both amounts parsed, start ≤ end, no other record of the posted employee contains a requested endpoint; only that record's period, bonus and deduction change, and its employee id, the other records and the other tables stay the same |
| SalaryRules.EditSalaryNotFound | SalaryApp/Controllers/SalaryController.cs:211-226 | edit reports NotFound exactly on a route/body id mismatch or a record that is not found together with its employee and that employee's position |
| SalaryRules.EditSalaryInvalidAmount | SalaryApp/Controllers/SalaryController.cs:234-261 | with the record loaded, the edit is refused as an invalid amount exactly when the bonus or the deduction text does not parse, before the period and clash checks |
| SalaryRules.EditSalaryRules | SalaryApp/Controllers/SalaryController.cs:269-293 | once the record and amounts are in hand, StartAfterEnd exactly for start > end, Overlap exactly for an endpoint clash with another record of the posted employee (the record itself excluded), success otherwise |
| SalaryRules.EditSalaryWeakerThanCreate | SalaryApp/Controllers/SalaryController.cs:101-127 | an edit into the future, or of a terminated employee's period, succeeds where a create with the same fields is refused; for a found employee and a period ending after today that refusal is FuturePeriod, the check edit lacks |
| SalaryRules.EditSalaryIdempotent | SalaryApp/Controllers/SalaryController.cs:269-293 | repeating a successful edit on its result leaves the store as the first edit left it |
| SalaryRules.EditSalaryChecksPostedEmployee | SalaryApp/Controllers/SalaryController.cs:276-281 | with another employee id posted, a record is moved onto its own employee's other period, breaking the no-overlap invariant |
| SalaryRules.DeleteSalary | SalaryApp/Controllers/SalaryController.cs:356-367 | delete succeeds exactly when the id exists and removes exactly that salary, leaving every other record; otherwise NotFound |
| SalaryRules.CreateThenDeleteRestores | SalaryApp/Controllers/SalaryController.cs:129-144 | deleting the salary a create just added gives back the original store |
| SalaryRules.SalaryHandlersKeepLinks | SalaryApp/Controllers/SalaryController.cs:129-144 | create, edit and delete keep every salary pointing at an existing employee |
| SalaryRules.StatementTotal | SalaryApp/Controllers/SalaryController.cs:370-385 | the statement succeeds exactly when the salary is found together with its employee and the employee's position, and is NotFound otherwise; the total is the position's base salary plus the bonus minus the deduction (:431) |
| SalaryRules.StatementExistsWhenLinked | SalaryApp/Controllers/SalaryController.cs:377-385 | in a linked store (every salary's employee and every employee's position exist) the statement exists exactly when the salary does |
| SalaryRules.CreateSalaryStatement | SalaryApp/Controllers/SalaryController.cs:431 | in a linked store the salary a create adds has a statement totalling the employee's base salary plus the submitted bonus minus the submitted deduction, and every other statement is unchanged |
| SalaryRules.EditSalaryShiftsTotal | SalaryApp/Controllers/SalaryController.cs:290-293 | a successful edit changes the edited record's statement total by exactly the new bonus − deduction minus the old, and leaves every other salary's statement unchanged |
| EmployeeLifecycle.ActiveEmployees | SalaryApp/Controllers/EmployeeController.cs:23-35 | the listing holds exactly the employees whose terminated flag is false and whose company, position, office, address and city exist, with their records |
| EmployeeLifecycle.CreateEmployee | SalaryApp/Controllers/EmployeeController.cs:52-145 | create succeeds exactly when company, position, office and city all exist (otherwise nothing changes); it adds one address of type Employee carrying the submitted street name and number, neighbourhood, postal code and city, and one active employee referencing it, with no termination date and the submitted names, hire date, company, position and office; no other table changes |
| EmployeeLifecycle.CreateEmployeeIgnoresAddressType | SalaryApp/Controllers/EmployeeController.cs:81-90 | the address type submitted on the form does not affect the result |
| EmployeeLifecycle.CreateEmployeeIsActive | SalaryApp/Controllers/EmployeeController.cs:96-114 | after a create the new employee is listed and everyone listed before still is; when every key of the store resolves, the listing is exactly the old one plus the new employee |
| EmployeeLifecycle.EditEmployee | SalaryApp/Controllers/EmployeeController.cs:220-300 | every refusal is NotFound; success exactly when the ids match and the employee and its address exist; then every name, id, date and flag column of that employee and every column of its address takes the submitted value, and nothing else changes in any table |
| EmployeeLifecycle.EditEmployeeConsistency | SalaryApp/Controllers/EmployeeController.cs:263-265 | after an edit of a consistent store, the store is consistent exactly when the submitted flag and date agree |
| EmployeeLifecycle.EditEmployeeCanBreakConsistency | SalaryApp/Controllers/EmployeeController.cs:263-265 | an edit posting IsTerminated = true with no termination date is accepted and leaves the flag and date out of step |
| EmployeeLifecycle.Terminate | SalaryApp/Controllers/EmployeeController.cs:329-342 | NotFound exactly for a missing id; otherwise no row is removed, the flag is set, the date is now, and every other field and record is unchanged |
| EmployeeLifecycle.TerminateTwice | SalaryApp/Controllers/EmployeeController.cs:329-342 | terminating again succeeds and is the same as terminating once at the later date |
| EmployeeLifecycle.TerminateLeavesListing | SalaryApp/Controllers/EmployeeController.cs:31 | after a termination the active listing is the old one without that employee |
| EmployeeLifecycle.Rehire | SalaryApp/Controllers/EmployeeController.cs:369-390 | succeeds exactly for an existing terminated employee; NotFound exactly for a missing one, BadRequest otherwise; on success the flag is cleared, the date is null and the hire date is now, with every other field and record unchanged |
| EmployeeLifecycle.RehireActiveRefused | SalaryApp/Controllers/EmployeeController.cs:377-380 | rehiring an active employee is a BadRequest and changes nothing |
| EmployeeLifecycle.RehireUndoesTerminate | SalaryApp/Controllers/EmployeeController.cs:329-390 | terminating and then rehiring an active, consistent employee gives back the original store except for the hire date, which becomes the rehire date |
| EmployeeLifecycle.RehireJoinsListing | SalaryApp/Controllers/EmployeeController.cs:382-389 | after a rehire the employee is listed exactly when its related rows exist, and the listing gains no one else |
| EmployeeLifecycle.LifecycleKeepsConsistent | SalaryApp/Controllers/EmployeeController.cs:102 | create, terminate and rehire keep IsTerminated ⇔ TerminationDate ≠ null for every employee |
| EmployeeLifecycle.LifecycleKeepsLinks | SalaryApp/Controllers/EmployeeController.cs:68-116 | create, terminate and rehire keep every employee's address, position, office and company and every address's city resolvable |
| Scenarios.PaidForTheMonth | SalaryApp/Controllers/SalaryController.cs:71-144 | an employee paid for May 2024 with base 5000.00, bonus 200.00 and deduction 50.00 has a statement total of 5150.00, and a period shifted ten days earlier is refused as an overlap |
| Scenarios.TerminatedThenRehired | SalaryApp/Controllers/EmployeeController.cs:329-390 | a terminated employee is refused a salary; rehire clears the flag and date and sets the hire date to today; a second rehire is a BadRequest |

## Left out

- Entity Framework queries, `Include` graphs, `SaveChangesAsync` and explicit transactions
  are not modelled. Each handler is all-or-nothing by construction.
- Database failures on save (`DbUpdateException`, concurrency exceptions) are not
  modelled, including foreign-key rejection when an employee edit posts an unknown
  company, position, office or city id. The model stores such ids as posted.
- The check-then-insert race between concurrent salary creates is not modelled. Every
  request is sequential.
- `DateTime.Now` is the `now` parameter, as a day number, and period dates are whole
  days. This is exact for dates at midnight, such as the default period and dates picked
  in the edit form. The create form's period fields are plain `DateTime`s, so a posted time
  of day is possible but not modelled. For example, an end of today 23:00 posted at 10:00
  is refused by the source as a future date, but the model accepts it.
- Framework validation is not modelled: `ModelState.IsValid`, `[Required]`, `[MaxLength]`,
  `[Range]`, anti-forgery and binding attributes. A request that fails it returns the
  form without any change.
- Culture-sensitive `decimal.TryParse` of the edit form's bonus and deduction is an
  `Option<Money>` input. `None` means the text did not parse.
- Decimal precision and rounding are not modelled. Amounts are unbounded whole cents.
- HTML, currency and date formatting in `ViewPdf`, logging, and the dropdown lists are
  left out. So are the GET actions that only render forms, except the default period.
- Entities.FreshId: an identity column never reuses an id. The model uses one past the
  largest id still present, so it can reuse the id of a deleted top row. The only promise
  stated is freshness.
- Companies, offices and cities are only looked up by id, so only their ids are kept.
  Departments and the seed data are not modelled.
- `AddressType` is not part of this model beyond its `Employee` member; other members are
  opaque codes.

=== FILE: calendar.dfy ===
/** The proleptic Gregorian calendar as `System.DateTime` uses it: leap years,
    month lengths, the day number of a date, and the default pay period the
    salary form proposes (the first through the last day of the current month). */
module Calendar {
  import opened Types

  datatype CalendarDate = CalendarDate(year: int, month: int, day: int)

  /** `DateTime` covers the years 1 through 9999. */
  predicate ValidYear(year: int) {
    1 <= year <= 9999
  }

  predicate IsLeapYear(year: int) {
    year % 4 == 0 && (year % 100 != 0 || year % 400 == 0)
  }

  /** `DateTime.DaysInMonth`; the library throws for a month outside 1..12. */
  function DaysInMonth(year: int, month: int): (n: int)
    requires ValidYear(year) && 1 <= month <= 12
    ensures 28 <= n <= 31
    ensures n == 28 <==> month == 2 && !IsLeapYear(year)
    ensures n == 29 <==> month == 2 && IsLeapYear(year)
    ensures n == 30 <==> month == 4 || month == 6 || month == 9 || month == 11
    ensures n == 31 <==> month == 1 || month == 3 || month == 5 || month == 7 || month == 8
                         || month == 10 || month == 12
  {
    if month == 2 then
      (if IsLeapYear(year) then 29 else 28)
    else if month == 4 || month == 6 || month == 9 || month == 11 then 30
    else 31
  }

  predicate ValidDate(d: CalendarDate) {
    ValidYear(d.year) && 1 <= d.month <= 12 && 1 <= d.day <= DaysInMonth(d.year, d.month)
  }

  function YearLength(year: int): int {
    if IsLeapYear(year) then 366 else 365
  }

  /** Days from January 1st to the first day of `month` (13 means the end of the year). */
  function DaysBeforeMonth(year: int, month: int): (n: nat)
    requires ValidYear(year) && 1 <= month <= 13
  {
    if month == 1 then 0 else DaysBeforeMonth(year, month - 1) + DaysInMonth(year, month - 1)
  }

  /** Days from 0001-01-01 to January 1st of `year`, in closed form. */
  function DaysBeforeYear(year: int): int
    requires year >= 1
  {
    var y := year - 1;
    y * 365 + y / 4 - y / 100 + y / 400
  }

  /** Days since 0001-01-01. */
  function DayNumber(d: CalendarDate): Date
    requires ValidDate(d)
  {
    DaysBeforeYear(d.year) + DaysBeforeMonth(d.year, d.month) + d.day - 1
  }

  /** Strictly earlier, field by field. */
  predicate Before(a: CalendarDate, b: CalendarDate) {
    a.year < b.year
    || (a.year == b.year && a.month < b.month)
    || (a.year == b.year && a.month == b.month && a.day < b.day)
  }

  /** The period the salary form proposes when it is opened on `today`:
      the first and the last day of today's month. */
  function DefaultPeriod(today: CalendarDate): (r: (CalendarDate, CalendarDate))
    requires ValidDate(today)
    ensures ValidDate(r.0) && ValidDate(r.1)
    ensures r.0.year == today.year && r.0.month == today.month
    ensures r.1.year == today.year && r.1.month == today.month
    ensures forall d :: ValidDate(CalendarDate(today.year, today.month, d)) <==> r.0.day <= d <= r.1.day
  {
    (CalendarDate(today.year, today.month, 1),
     CalendarDate(today.year, today.month, DaysInMonth(today.year, today.month)))
  }

  // ---------------------------------------------------------------------
  // The closed-form year count and the month table agree.

  /** Consecutive years differ by the length of the earlier one. */
  lemma YearStep(year: int)
    requires year >= 1
    ensures DaysBeforeYear(year + 1) == DaysBeforeYear(year) + YearLength(year)
  {
    var y := year - 1;
    QuotientStep4(y);
    QuotientStep100(y);
    QuotientStep400(y);
  }

  // Counting one more number adds one multiple of k exactly when it is one.

  lemma QuotientStep4(y: int)
    requires y >= 0
    ensures (y + 1) / 4 == y / 4 + (if (y + 1) % 4 == 0 then 1 else 0)
  {
  }

  lemma QuotientStep100(y: int)
    requires y >= 0
    ensures (y + 1) / 100 == y / 100 + (if (y + 1) % 100 == 0 then 1 else 0)
  {
  }

  lemma QuotientStep400(y: int)
    requires y >= 0
    ensures (y + 1) / 400 == y / 400 + (if (y + 1) % 400 == 0 then 1 else 0)
  {
  }

  /** The twelve months add up to the length of the year. */
  lemma {:induction false} MonthsFillYear(year: int)
    requires ValidYear(year)
    ensures DaysBeforeMonth(year, 13) == YearLength(year)
  {
    assert DaysBeforeMonth(year, 2) == 31;
    assert DaysBeforeMonth(year, 3) == 31 + DaysInMonth(year, 2);
    assert DaysBeforeMonth(year, 4) == DaysBeforeMonth(year, 3) + 31;
    assert DaysBeforeMonth(year, 5) == DaysBeforeMonth(year, 4) + 30;
    assert DaysBeforeMonth(year, 6) == DaysBeforeMonth(year, 5) + 31;
    assert DaysBeforeMonth(year, 7) == DaysBeforeMonth(year, 6) + 30;
    assert DaysBeforeMonth(year, 8) == DaysBeforeMonth(year, 7) + 31;
    assert DaysBeforeMonth(year, 9) == DaysBeforeMonth(year, 8) + 31;
    assert DaysBeforeMonth(year, 10) == DaysBeforeMonth(year, 9) + 30;
    assert DaysBeforeMonth(year, 11) == DaysBeforeMonth(year, 10) + 31;
    assert DaysBeforeMonth(year, 12) == DaysBeforeMonth(year, 11) + 30;
  }

  lemma {:induction false} DaysBeforeMonthMonotone(year: int, m1: int, m2: int)
    requires ValidYear(year) && 1 <= m1 <= m2 <= 13
    ensures DaysBeforeMonth(year, m1) <= DaysBeforeMonth(year, m2)
    decreases m2 - m1
  {
    if m1 < m2 {
      DaysBeforeMonthMonotone(year, m1, m2 - 1);
    }
  }

  lemma {:induction false} DaysBeforeYearMonotone(y1: int, y2: int)
    requires 1 <= y1 <= y2
    ensures DaysBeforeYear(y1) + 365 * (y2 - y1) <= DaysBeforeYear(y2)
    decreases y2 - y1
  {
    if y1 < y2 {
      DaysBeforeYearMonotone(y1, y2 - 1);
      YearStep(y2 - 1);
    }
  }

  /** A valid date's day number lies within its year. */
  lemma DayNumberWithinYear(d: CalendarDate)
    requires ValidDate(d)
    ensures DaysBeforeYear(d.year) <= DayNumber(d) < DaysBeforeYear(d.year + 1)
  {
    DaysBeforeMonthMonotone(d.year, d.month + 1, 13);
    MonthsFillYear(d.year);
    YearStep(d.year);
  }

  /** A valid date's day number lies within its month. */
  lemma DayNumberWithinMonth(d: CalendarDate)
    requires ValidDate(d)
    ensures DaysBeforeYear(d.year) + DaysBeforeMonth(d.year, d.month) <= DayNumber(d)
    ensures DayNumber(d) < DaysBeforeYear(d.year) + DaysBeforeMonth(d.year, d.month + 1)
  {
  }

  /** Day numbers order dates exactly as the calendar does. */
  lemma DayNumberOrder(a: CalendarDate, b: CalendarDate)
    requires ValidDate(a) && ValidDate(b)
    ensures Before(a, b) <==> DayNumber(a) < DayNumber(b)
    ensures a == b <==> DayNumber(a) == DayNumber(b)
  {
    if Before(a, b) {
      BeforeSmaller(a, b);
    } else if Before(b, a) {
      BeforeSmaller(b, a);
    }
  }

  lemma BeforeSmaller(a: CalendarDate, b: CalendarDate)
    requires ValidDate(a) && ValidDate(b) && Before(a, b)
    ensures DayNumber(a) < DayNumber(b)
  {
    if a.year < b.year {
      DayNumberWithinYear(a);
      DayNumberWithinYear(b);
      DaysBeforeYearMonotone(a.year + 1, b.year);
    } else if a.month < b.month {
      DayNumberWithinMonth(a);
      DaysBeforeMonthMonotone(a.year, a.month + 1, b.month);
    }
  }

  /** The last day of a month is immediately followed by the first day of the next. */
  lemma MonthsAreContiguous(year: int, month: int)
    requires ValidYear(year) && 1 <= month <= 12
    requires month == 12 ==> year < 9999
    ensures var last := CalendarDate(year, month, DaysInMonth(year, month));
            var next := if month == 12 then CalendarDate(year + 1, 1, 1) else CalendarDate(year, month + 1, 1);
            ValidDate(next) && DayNumber(last) + 1 == DayNumber(next)
  {
    if month == 12 {
      MonthsFillYear(year);
      YearStep(year);
    }
  }

  /** The default period spans exactly the days of today's month, today among them. */
  lemma DefaultPeriodSpansMonth(today: CalendarDate)
    requires ValidDate(today)
    ensures var (s, e) := DefaultPeriod(today);
            && DayNumber(e) - DayNumber(s) + 1 == DaysInMonth(today.year, today.month)
            && DayNumber(s) <= DayNumber(today) <= DayNumber(e)
  {
  }

  /** Proposed on any day but the last of the month, the default period ends
      after today, so the future-date rule of salary creation rejects it. */
  lemma DefaultPeriodEndsInFuture(today: CalendarDate)
    requires ValidDate(today)
    ensures DayNumber(DefaultPeriod(today).1) > DayNumber(today)
            <==> today.day < DaysInMonth(today.year, today.month)
  {
  }
}

=== FILE: employee.dfy ===
/** The employee lifecycle `EmployeeController` implements: hiring with an
    owned address, editing, soft termination, rehiring, and the listing of
    active employees. */
module EmployeeLifecycle {
  import opened Types
  import opened Entities

  /** The intended link between the two termination columns. */
  predicate Consistent(e: Employee) {
    e.isTerminated <==> e.terminationDate.Some?
  }

  ghost predicate AllConsistent(st: Store) {
    forall id :: id in st.employees ==> Consistent(st.employees[id])
  }

  // ---------------------------------------------------------------------
  // Listing

  /** The listing loads each employee together with its company, position,
      office, address and the address's city; those relationships are
      required, so the query joins them and an employee missing any of them is
      not returned. */
  predicate Listable(st: Store, e: Employee) {
    EmployeeLinked(st, e) && st.addresses[e.addressId].cityId in st.cities
  }

  /** Index: the employees whose terminated flag is clear. */
  function ActiveEmployees(st: Store): (r: map<int, Employee>)
    ensures forall id :: id in r <==> id in st.employees && !st.employees[id].isTerminated
                                      && Listable(st, st.employees[id])
    ensures forall id :: id in r ==> r[id] == st.employees[id]
  {
    map id | id in st.employees && !st.employees[id].isTerminated && Listable(st, st.employees[id])
      :: st.employees[id]
  }

  // ---------------------------------------------------------------------
  // Create

  /** The create form. The submitted address type is bound but never used. */
  datatype EmployeeDraft = EmployeeDraft(
    firstName: string,
    middleName: Option<string>,
    lastName: string,
    companyId: int,
    positionId: int,
    officeId: int,
    hireDate: Date,
    streetName: string,
    streetNumber: string,
    neighborhood: Option<string>,
    postalCode: Option<string>,
    cityId: int,
    addressType: AddressType)

  predicate RelatedResolve(st: Store, d: EmployeeDraft) {
    && d.companyId in st.companies
    && d.positionId in st.positions
    && d.officeId in st.offices
    && d.cityId in st.cities
  }

  /** Create POST: look up the company, position, office and city; if all
      exist, insert an address of type Employee and then an active employee
      that references it, both in one transaction. */
  function CreateEmployee(st: Store, d: EmployeeDraft): (r: Result<Created>)
    ensures r.Ok? <==> RelatedResolve(st, d)
    ensures r.Err? ==> r.error == RelatedEntityMissing
    ensures r.Ok? ==>
              var st', id := r.value.store, r.value.id;
              && id !in st.employees && id in st'.employees
              && st'.employees.Keys == st.employees.Keys + {id}
              && (forall k :: k in st.employees ==> st'.employees[k] == st.employees[k])
              && st'.(employees := st.employees, addresses := st.addresses) == st
    ensures r.Ok? ==>
              var st', e := r.value.store, r.value.store.employees[r.value.id];
              && e.addressId !in st.addresses && e.addressId in st'.addresses
              && st'.addresses == st.addresses[e.addressId := st'.addresses[e.addressId]]
              && st'.addresses[e.addressId]
                 == Address(d.streetName, d.streetNumber, d.neighborhood, d.postalCode, d.cityId, EmployeeAddress)
              && e == Employee(d.firstName, d.middleName, d.lastName, e.addressId, d.hireDate,
                               None, false, d.positionId, d.officeId, d.companyId)
  {
    if !RelatedResolve(st, d) then
      Err(RelatedEntityMissing)
    else
      var aid := FreshId(st.addresses.Keys);
      var address := Address(d.streetName, d.streetNumber, d.neighborhood, d.postalCode,
                             d.cityId, EmployeeAddress);
      var eid := FreshId(st.employees.Keys);
      var employee := Employee(d.firstName, d.middleName, d.lastName, aid, d.hireDate,
                               None, false, d.positionId, d.officeId, d.companyId);
      Ok(Created(st.(addresses := st.addresses[aid := address],
                     employees := st.employees[eid := employee]), eid))
  }

  /** The address type on the form plays no part in what is stored. */
  lemma CreateEmployeeIgnoresAddressType(st: Store, d: EmployeeDraft, t: AddressType)
    ensures CreateEmployee(st, d) == CreateEmployee(st, d.(addressType := t))
  {
  }

  /** A new hire is listed as active and nobody listed before drops out; in
      a store whose keys all resolve, nobody else joins either. */
  lemma CreateEmployeeIsActive(st: Store, d: EmployeeDraft)
    requires CreateEmployee(st, d).Ok?
    ensures var c := CreateEmployee(st, d).value;
            c.id in ActiveEmployees(c.store) && ActiveEmployees(st).Keys <= ActiveEmployees(c.store).Keys
    ensures var c := CreateEmployee(st, d).value;
            Linked(st) ==> ActiveEmployees(c.store).Keys == ActiveEmployees(st).Keys + {c.id}
  {
  }

  // ---------------------------------------------------------------------
  // Edit

  /** The edit form: every employee column and every owned-address column. */
  datatype EmployeeEdit = EmployeeEdit(
    id: int,
    firstName: string,
    middleName: Option<string>,
    lastName: string,
    companyId: int,
    positionId: int,
    officeId: int,
    hireDate: Date,
    terminationDate: Option<Date>,
    isTerminated: bool,
    streetName: string,
    streetNumber: string,
    neighborhood: Option<string>,
    postalCode: Option<string>,
    cityId: int,
    addressType: AddressType)

  /** Edit POST: NotFound on an id mismatch, or when the employee is not
      loaded together with its address (a required relationship, so the query
      joins it); otherwise every field of the employee and of its address is
      overwritten, with no rule checked. */
  function EditEmployee(st: Store, routeId: int, v: EmployeeEdit): (r: Result<Store>)
    ensures r.Err? ==> r.error == NotFound
    ensures r.Ok? <==> routeId == v.id && v.id in st.employees && st.employees[v.id].addressId in st.addresses
    ensures r.Ok? ==> r.value.(employees := st.employees, addresses := st.addresses) == st
    ensures r.Ok? ==> r.value.employees.Keys == st.employees.Keys && r.value.addresses.Keys == st.addresses.Keys
    ensures r.Ok? ==> v.id in st.employees && st.employees[v.id].addressId in st.addresses
    ensures r.Ok? ==>
              var e, e' := st.employees[v.id], r.value.employees[v.id];
              && e'.addressId == e.addressId
              && e'.firstName == v.firstName && e'.middleName == v.middleName && e'.lastName == v.lastName
              && e'.companyId == v.companyId && e'.positionId == v.positionId && e'.officeId == v.officeId
              && e'.hireDate == v.hireDate && e'.terminationDate == v.terminationDate
              && e'.isTerminated == v.isTerminated
              && r.value.addresses[e.addressId]
                 == Address(v.streetName, v.streetNumber, v.neighborhood, v.postalCode, v.cityId, v.addressType)
    ensures r.Ok? ==>
              && (forall k :: k in st.employees && k != v.id ==> r.value.employees[k] == st.employees[k])
              && (forall a :: a in st.addresses && a != st.employees[v.id].addressId
                    ==> r.value.addresses[a] == st.addresses[a])
              && r.value.salaries == st.salaries
  {
    if routeId != v.id then Err(NotFound)
    else if v.id !in st.employees then Err(NotFound)
    else
      var e := st.employees[v.id];
      if e.addressId !in st.addresses then Err(NotFound)
      else
        var e' := e.(firstName := v.firstName, middleName := v.middleName, lastName := v.lastName,
                     companyId := v.companyId, positionId := v.positionId, officeId := v.officeId,
                     hireDate := v.hireDate, terminationDate := v.terminationDate,
                     isTerminated := v.isTerminated);
        var a' := Address(v.streetName, v.streetNumber, v.neighborhood, v.postalCode,
                          v.cityId, v.addressType);
        Ok(st.(employees := st.employees[v.id := e'], addresses := st.addresses[e.addressId := a']))
  }

  /** Edit keeps an employee consistent exactly when the form is: the flag
      and the date are copied independently. */
  lemma EditEmployeeConsistency(st: Store, routeId: int, v: EmployeeEdit)
    requires AllConsistent(st)
    requires EditEmployee(st, routeId, v).Ok?
    ensures AllConsistent(EditEmployee(st, routeId, v).value) <==> (v.isTerminated <==> v.terminationDate.Some?)
  {
  }

  /** So an edit can break consistency: a terminated flag without a date. */
  lemma EditEmployeeCanBreakConsistency()
    ensures var e := Employee("A", None, "B", 1, 0, None, false, 1, 1, 1);
            var st := Store(map[1 := e], map[1 := Address("S", "1", None, None, 1, EmployeeAddress)],
                            map[], map[], {}, {}, {});
            var v := EmployeeEdit(1, "A", None, "B", 1, 1, 1, 0, None, true, "S", "1", None, None, 1, EmployeeAddress);
            && AllConsistent(st)
            && EditEmployee(st, 1, v).Ok?
            && !AllConsistent(EditEmployee(st, 1, v).value)
  {
  }

  // ---------------------------------------------------------------------
  // Terminate

  /** DeleteConfirmed: the row stays; the flag is set and the date stamped
      with now. Repeating it re-stamps the date. */
  function Terminate(st: Store, id: int, now: Date): (r: Result<Store>)
    ensures r.Ok? <==> id in st.employees
    ensures r.Err? ==> r.error == NotFound
    ensures r.Ok? ==>
              && r.value.employees.Keys == st.employees.Keys
              && r.value.employees[id].isTerminated
              && r.value.employees[id].terminationDate == Some(now)
              && r.value.employees[id].(isTerminated := st.employees[id].isTerminated,
                                        terminationDate := st.employees[id].terminationDate)
                 == st.employees[id]
              && (forall k :: k in st.employees && k != id ==> r.value.employees[k] == st.employees[k])
              && r.value.(employees := st.employees) == st
  {
    if id !in st.employees then Err(NotFound)
    else
      var e := st.employees[id];
      Ok(st.(employees := st.employees[id := e.(isTerminated := true, terminationDate := Some(now))]))
  }

  /** Terminating twice succeeds both times and leaves the later date. */
  lemma TerminateTwice(st: Store, id: int, t1: Date, t2: Date)
    requires Terminate(st, id, t1).Ok?
    ensures Terminate(Terminate(st, id, t1).value, id, t2) == Terminate(st, id, t2)
  {
    var s1 := Terminate(st, id, t1).value;
    var e := st.employees[id];
    assert s1.employees[id := e.(isTerminated := true, terminationDate := Some(t2))]
        == st.employees[id := e.(isTerminated := true, terminationDate := Some(t2))];
  }

  /** A terminated employee leaves the active listing, and no one else does. */
  lemma TerminateLeavesListing(st: Store, id: int, now: Date)
    requires Terminate(st, id, now).Ok?
    ensures ActiveEmployees(Terminate(st, id, now).value).Keys == ActiveEmployees(st).Keys - {id}
  {
  }

  // ---------------------------------------------------------------------
  // Rehire

  /** RehireConfirmed: NotFound for a missing employee, BadRequest for one
      who is not terminated; otherwise the flag and the date are cleared and
      the hire date reset to now. */
  function Rehire(st: Store, id: int, now: Date): (r: Result<Store>)
    ensures r.Ok? <==> id in st.employees && st.employees[id].isTerminated
    ensures r.Err? ==> (r.error == NotFound <==> id !in st.employees)
    ensures r.Err? ==> r.error == NotFound || r.error == BadRequest
    ensures r.Ok? ==> r.value.employees.Keys == st.employees.Keys
    ensures r.Ok? ==>
              var e, e' := st.employees[id], r.value.employees[id];
              && !e'.isTerminated && e'.terminationDate.None? && e'.hireDate == now
              && e'.(isTerminated := e.isTerminated, terminationDate := e.terminationDate,
                     hireDate := e.hireDate) == e
              && (forall k :: k in st.employees && k != id ==> r.value.employees[k] == st.employees[k])
              && r.value.(employees := st.employees) == st
  {
    if id !in st.employees then Err(NotFound)
    else
      var e := st.employees[id];
      if !e.isTerminated then Err(BadRequest)
      else Ok(st.(employees := st.employees[id := e.(isTerminated := false, terminationDate := None,
                                                     hireDate := now)]))
  }

  /** Rehiring an active employee is refused and changes nothing. */
  lemma RehireActiveRefused(st: Store, id: int, now: Date)
    requires id in st.employees && !st.employees[id].isTerminated
    ensures Rehire(st, id, now) == Err(BadRequest)
  {
  }

  /** Rehire undoes a termination of an active, consistent employee except
      for the hire date, which is replaced by the rehire date. */
  lemma RehireUndoesTerminate(st: Store, id: int, t: Date, now: Date)
    requires id in st.employees && !st.employees[id].isTerminated && Consistent(st.employees[id])
    ensures var r := Rehire(Terminate(st, id, t).value, id, now);
            r == Ok(st.(employees := st.employees[id := st.employees[id].(hireDate := now)]))
  {
    var e := st.employees[id];
    var s1 := Terminate(st, id, t).value;
    var e1 := e.(isTerminated := true, terminationDate := Some(t));
    assert s1.employees == st.employees[id := e1];
    assert e1.(isTerminated := false, terminationDate := None, hireDate := now) == e.(hireDate := now);
    assert s1.employees[id := e.(hireDate := now)] == st.employees[id := e.(hireDate := now)];
  }

  /** A rehired employee is listed again when its related rows resolve, and
      the listing gains no one else. */
  lemma RehireJoinsListing(st: Store, id: int, now: Date)
    requires Rehire(st, id, now).Ok?
    ensures id in ActiveEmployees(Rehire(st, id, now).value) <==> Listable(st, st.employees[id])
    ensures ActiveEmployees(Rehire(st, id, now).value).Keys - {id} == ActiveEmployees(st).Keys
  {
  }

  // ---------------------------------------------------------------------
  // Invariants

  /** Create, terminate and rehire keep the flag and the date in step. */
  lemma LifecycleKeepsConsistent(st: Store, d: EmployeeDraft, id: int, now: Date)
    requires AllConsistent(st)
    ensures CreateEmployee(st, d).Ok? ==> AllConsistent(CreateEmployee(st, d).value.store)
    ensures Terminate(st, id, now).Ok? ==> AllConsistent(Terminate(st, id, now).value)
    ensures Rehire(st, id, now).Ok? ==> AllConsistent(Rehire(st, id, now).value)
  {
  }

  /** Create, terminate and rehire keep every foreign key resolvable; the
      new employee's company, position, office and city were looked up. */
  lemma LifecycleKeepsLinks(st: Store, d: EmployeeDraft, id: int, now: Date)
    requires Linked(st)
    ensures CreateEmployee(st, d).Ok? ==> Linked(CreateEmployee(st, d).value.store)
    ensures Terminate(st, id, now).Ok? ==> Linked(Terminate(st, id, now).value)
    ensures Rehire(st, id, now).Ok? ==> Linked(Rehire(st, id, now).value)
  {
  }
}

=== FILE: entities.dfy ===
/** The records the two controllers read and write, and the in-memory store
    that stands in for the database: one map per table, keyed by id. */
module Entities {
  import opened Types

  /** `AddressType`; the handlers only ever name the `Employee` member, every
      other member is kept as an opaque code. */
  datatype AddressType = EmployeeAddress | OtherAddress(code: int)

  datatype Address = Address(
    streetName: string,
    streetNumber: string,
    neighborhood: Option<string>,
    postalCode: Option<string>,
    cityId: int,
    addressType: AddressType)

  /** An employee row. `isTerminated` and `terminationDate` are two independent
      columns; see `EmployeeLifecycle.Consistent` for the intended link. */
  datatype Employee = Employee(
    firstName: string,
    middleName: Option<string>,
    lastName: string,
    addressId: int,
    hireDate: Date,
    terminationDate: Option<Date>,
    isTerminated: bool,
    positionId: int,
    officeId: int,
    companyId: int)

  datatype Position = Position(title: string, baseSalary: Money)

  /** One pay period of one employee: the closed range [periodStart, periodEnd]. */
  datatype Salary = Salary(
    employeeId: int,
    periodStart: Date,
    periodEnd: Date,
    bonus: Money,
    deduction: Money)

  /** The tables the core touches. Companies, offices and cities are only
      looked up by id, so only their ids are kept. */
  datatype Store = Store(
    employees: map<int, Employee>,
    addresses: map<int, Address>,
    salaries: map<int, Salary>,
    positions: map<int, Position>,
    companies: set<int>,
    offices: set<int>,
    cities: set<int>)

  /** A store after a successful insert, with the id the new row received. */
  datatype Created = Created(store: Store, id: int)

  /** Every foreign key the model keeps resolves (the database's
      restrict-on-delete relationships). */
  ghost predicate Linked(st: Store) {
    && (forall sid :: sid in st.salaries ==> st.salaries[sid].employeeId in st.employees)
    && (forall eid :: eid in st.employees ==> EmployeeLinked(st, st.employees[eid]))
    && (forall aid :: aid in st.addresses ==> st.addresses[aid].cityId in st.cities)
  }

  predicate EmployeeLinked(st: Store, e: Employee) {
    && e.addressId in st.addresses
    && e.positionId in st.positions
    && e.officeId in st.offices
    && e.companyId in st.companies
  }

  /** A set with no element is the empty set. */
  lemma NoElementEmpty(s: set<int>)
    requires forall k :: k !in s
    ensures s == {}
  {
    assert forall k :: k in s <==> k in {};
  }

  predicate IsMax(m: int, s: set<int>) {
    m in s && forall k :: k in s ==> k <= m
  }

  /** The largest element of a non-empty finite set exists. */
  lemma {:induction false} MaxExists(s: set<int>)
    requires s != {}
    ensures exists m :: IsMax(m, s)
    decreases |s|
  {
    if forall k :: k !in s {
      NoElementEmpty(s);
      assert false;
    }
    var x :| x in s;
    var rest := s - {x};
    if forall k :: k !in rest {
      forall k | k in s ensures k == x || k in rest {
      }
      assert IsMax(x, s);
    } else {
      var y :| y in rest;  // a witness that rest is not empty, as MaxExists(rest) requires
      MaxExists(rest);
      var m :| IsMax(m, rest);
      var top := if x <= m then m else x;
      forall k | k in s ensures k == x || k in rest {
      }
      assert IsMax(top, s);
    }
  }

  /** The id an identity column hands out next: one past the largest id in
      use, and 1 for an empty table. */
  function FreshId(ids: set<int>): (r: int)
    ensures r !in ids && r >= 1
    ensures forall k :: k in ids ==> k < r
  {
    if ids == {} then 1
    else
      MaxExists(ids);
      var m :| IsMax(m, ids);
      if m < 1 then 1 else m + 1
  }
}

=== FILE: salary.dfy ===
/** The rules `SalaryController` applies when a pay period is recorded,
    changed or removed, and the total printed on a salary statement. Each
    handler is a function from the store to either a new store or the reason
    for refusal; a refusal never changes anything. */
module SalaryRules {
  import opened Types
  import opened Entities

  // ---------------------------------------------------------------------
  // The overlap test

  /** The clash test both handlers send to the database: the requested start
      or the requested end lies inside the existing closed period `s`. */
  predicate EndpointInside(s: Salary, start: Date, end: Date) {
    || (s.periodStart <= start && s.periodEnd >= start)
    || (s.periodStart <= end && s.periodEnd >= end)
  }

  /** Two closed periods share at least one day. */
  predicate Intersects(aStart: Date, aEnd: Date, bStart: Date, bEnd: Date) {
    aStart <= bEnd && bStart <= aEnd
  }

  /** The requested period begins before `s` and ends after it. */
  predicate StrictlyContains(start: Date, end: Date, s: Salary) {
    start < s.periodStart && s.periodEnd < end
  }

  /** Some salary of `employeeId`, other than the record `except`, fails the
      endpoint test against [start, end]. */
  predicate Clash(salaries: map<int, Salary>, employeeId: int, except: Option<int>, start: Date, end: Date) {
    exists sid :: sid in salaries && except != Some(sid)
      && salaries[sid].employeeId == employeeId && EndpointInside(salaries[sid], start, end)
  }

  /** For well-ordered periods the endpoint test misses exactly one kind of
      overlap: a requested period that strictly contains the existing one. */
  lemma EndpointTestMissesContainment(s: Salary, start: Date, end: Date)
    requires s.periodStart <= s.periodEnd && start <= end
    ensures Intersects(s.periodStart, s.periodEnd, start, end)
            <==> EndpointInside(s, start, end) || StrictlyContains(start, end, s)
    ensures StrictlyContains(start, end, s) ==> !EndpointInside(s, start, end)
  {
  }

  // ---------------------------------------------------------------------
  // Create

  /** The bound fields of the create form. */
  datatype SalaryDraft = SalaryDraft(
    employeeId: int,
    periodStart: Date,
    periodEnd: Date,
    bonus: Money,
    deduction: Money)

  function NewSalary(d: SalaryDraft): Salary {
    Salary(d.employeeId, d.periodStart, d.periodEnd, d.bonus, d.deduction)
  }

  /** The employee is loaded together with its position: the relationship is
      required, so the query joins the position and an employee without one
      is not found. */
  predicate EmployeeLoads(st: Store, employeeId: int) {
    employeeId in st.employees && st.employees[employeeId].positionId in st.positions
  }

  /** Create POST: the employee must be found; then start <= end; then neither
      end after today; then no clash with the employee's salaries; then the
      employee must not be terminated. Only then is the row inserted. */
  function CreateSalary(st: Store, d: SalaryDraft, now: Date): (r: Result<Created>)
    ensures r.Ok? ==> r.value.id !in st.salaries
    ensures r.Ok? ==> r.value.store == st.(salaries := st.salaries[r.value.id := NewSalary(d)])
    ensures r.Ok? ==> EmployeeLoads(st, d.employeeId) && !st.employees[d.employeeId].isTerminated
    ensures r.Ok? ==> d.periodStart <= d.periodEnd <= now
    ensures r.Ok? ==> forall sid :: sid in st.salaries && st.salaries[sid].employeeId == d.employeeId
                        ==> !EndpointInside(st.salaries[sid], d.periodStart, d.periodEnd)
  {
    if !EmployeeLoads(st, d.employeeId) then Err(NotFound)
    else if d.periodStart > d.periodEnd then Err(StartAfterEnd)
    else if d.periodStart > now || d.periodEnd > now then Err(FuturePeriod)
    else if Clash(st.salaries, d.employeeId, None, d.periodStart, d.periodEnd) then Err(Overlap)
    else if st.employees[d.employeeId].isTerminated then Err(TerminatedEmployee)
    else
      var id := FreshId(st.salaries.Keys);
      Ok(Created(st.(salaries := st.salaries[id := NewSalary(d)]), id))
  }

  /** An employee that is not found is reported as NotFound, and nothing else is. */
  lemma CreateSalaryUnknownEmployee(st: Store, d: SalaryDraft, now: Date)
    ensures CreateSalary(st, d, now) == Err(NotFound) <==> !EmployeeLoads(st, d.employeeId)
  {
  }

  /** A reversed period is reported before the date, overlap and termination
      checks, whatever they would say. */
  lemma CreateSalaryReversedPeriod(st: Store, d: SalaryDraft, now: Date)
    requires EmployeeLoads(st, d.employeeId)
    ensures CreateSalary(st, d, now) == Err(StartAfterEnd) <==> d.periodStart > d.periodEnd
  {
  }

  /** With an ordered period, a start or end after today is reported before
      the overlap and termination checks, and never produces a row. */
  lemma CreateSalaryFuturePeriod(st: Store, d: SalaryDraft, now: Date)
    requires EmployeeLoads(st, d.employeeId) && d.periodStart <= d.periodEnd
    ensures CreateSalary(st, d, now) == Err(FuturePeriod) <==> d.periodStart > now || d.periodEnd > now
  {
  }

  /** Past the earlier checks, "already exists" is reported exactly when one
      of the employee's salaries contains the requested start or end;
      termination is only looked at afterwards, so a terminated employee's
      overlapping request reports the overlap. */
  lemma CreateSalaryOverlap(st: Store, d: SalaryDraft, now: Date)
    requires EmployeeLoads(st, d.employeeId) && d.periodStart <= d.periodEnd <= now
    ensures CreateSalary(st, d, now) == Err(Overlap)
            <==> exists sid :: sid in st.salaries && st.salaries[sid].employeeId == d.employeeId
                   && ((st.salaries[sid].periodStart <= d.periodStart <= st.salaries[sid].periodEnd)
                       || (st.salaries[sid].periodStart <= d.periodEnd <= st.salaries[sid].periodEnd))
  {
  }

  /** A request that passes every other check fails for a terminated
      employee, and succeeds for an active one. */
  lemma CreateSalaryTerminated(st: Store, d: SalaryDraft, now: Date)
    requires EmployeeLoads(st, d.employeeId) && d.periodStart <= d.periodEnd <= now
    requires !Clash(st.salaries, d.employeeId, None, d.periodStart, d.periodEnd)
    ensures st.employees[d.employeeId].isTerminated ==> CreateSalary(st, d, now) == Err(TerminatedEmployee)
    ensures !st.employees[d.employeeId].isTerminated ==> CreateSalary(st, d, now).Ok?
  {
  }

  /** A successful create adds exactly one salary, carrying the submitted
      fields, and touches no other record. */
  lemma CreateSalaryAddsOne(st: Store, d: SalaryDraft, now: Date)
    requires CreateSalary(st, d, now).Ok?
    ensures var c := CreateSalary(st, d, now).value;
            && c.store.salaries.Keys == st.salaries.Keys + {c.id}
            && |c.store.salaries| == |st.salaries| + 1
            && c.store.salaries[c.id] == Salary(d.employeeId, d.periodStart, d.periodEnd, d.bonus, d.deduction)
            && (forall sid :: sid in st.salaries ==> c.store.salaries[sid] == st.salaries[sid])
            && c.store.employees == st.employees && c.store.addresses == st.addresses
  {
  }

  /** A requested period that strictly contains an existing one of the same
      employee is accepted, so two periods of one employee may share days. */
  lemma CreateSalaryAcceptsContainment()
    ensures var st := Store(map[1 := SampleEmployee()], map[], map[1 := Salary(1, 10, 20, 0, 0)],
                            map[1 := Position("Clerk", 0)], {}, {}, {});
            var d := SalaryDraft(1, 5, 25, 0, 0);
            && CreateSalary(st, d, 30).Ok?
            && Intersects(10, 20, d.periodStart, d.periodEnd)
  {
  }

  function SampleEmployee(): Employee {
    Employee("A", None, "B", 1, 0, None, false, 1, 1, 1)
  }

  // ---------------------------------------------------------------------
  // The no-overlap invariant

  ghost predicate WellOrdered(st: Store) {
    forall sid :: sid in st.salaries ==> st.salaries[sid].periodStart <= st.salaries[sid].periodEnd
  }

  /** No two salaries of one employee share a day. */
  ghost predicate NoOverlap(st: Store) {
    forall a, b :: a in st.salaries && b in st.salaries && a != b
      && st.salaries[a].employeeId == st.salaries[b].employeeId
      ==> !Intersects(st.salaries[a].periodStart, st.salaries[a].periodEnd,
                      st.salaries[b].periodStart, st.salaries[b].periodEnd)
  }

  /** Create keeps periods ordered and disjoint, provided the request does
      not strictly contain one of the employee's periods; that is the one
      overlap its test lets through. */
  lemma CreateSalaryKeepsNoOverlap(st: Store, d: SalaryDraft, now: Date)
    requires WellOrdered(st) && NoOverlap(st)
    requires CreateSalary(st, d, now).Ok?
    requires forall sid :: sid in st.salaries && st.salaries[sid].employeeId == d.employeeId
               ==> !StrictlyContains(d.periodStart, d.periodEnd, st.salaries[sid])
    ensures WellOrdered(CreateSalary(st, d, now).value.store)
    ensures NoOverlap(CreateSalary(st, d, now).value.store)
  {
  }

  /** Without that proviso the invariant can break. */
  lemma CreateSalaryCanBreakNoOverlap()
    ensures var st := Store(map[1 := SampleEmployee()], map[], map[1 := Salary(1, 10, 20, 0, 0)],
                            map[1 := Position("Clerk", 0)], {}, {}, {});
            var r := CreateSalary(st, SalaryDraft(1, 5, 25, 0, 0), 30);
            NoOverlap(st) && r.Ok? && !NoOverlap(r.value.store)
  {
    var st := Store(map[1 := SampleEmployee()], map[], map[1 := Salary(1, 10, 20, 0, 0)],
                    map[1 := Position("Clerk", 0)], {}, {}, {});
    var d := SalaryDraft(1, 5, 25, 0, 0);
    assert !Clash(st.salaries, 1, None, 5, 25);
    var c := CreateSalary(st, d, 30).value;
    assert c.id != 1 && c.store.salaries[1] == st.salaries[1];
    assert c.store.salaries[c.id] == NewSalary(d);
  }

  // ---------------------------------------------------------------------
  // Edit

  /** The edit form: the bound ids and period, and the bonus and deduction
      after parsing their text (None when it does not parse). */
  datatype SalaryEdit = SalaryEdit(
    id: int,
    employeeId: int,
    periodStart: Date,
    periodEnd: Date,
    bonus: Option<Money>,
    deduction: Option<Money>)

  /** Salary `id` is loaded together with its employee and that employee's
      position, as the edit handler and the statement query it: both
      relationships are required, so a record missing either is not found. */
  predicate RecordResolves(st: Store, id: int) {
    id in st.salaries && EmployeeLoads(st, st.salaries[id].employeeId)
  }

  /** Edit POST: NotFound on an id mismatch or a record that is not found;
      then an amount that does not parse; start <= end; no clash with
      the posted employee's other salaries. Only the period and the amounts are
      rewritten. No future-date or termination check is made. */
  function EditSalary(st: Store, routeId: int, e: SalaryEdit): (r: Result<Store>)
    ensures r.Ok? ==> routeId == e.id && RecordResolves(st, e.id)
    ensures r.Ok? ==> e.bonus.Some? && e.deduction.Some? && e.periodStart <= e.periodEnd
    ensures r.Ok? ==> !Clash(st.salaries, e.employeeId, Some(e.id), e.periodStart, e.periodEnd)
    ensures r.Ok? ==> r.value.salaries.Keys == st.salaries.Keys
    ensures r.Ok? ==> r.value.salaries[e.id]
                      == Salary(st.salaries[e.id].employeeId, e.periodStart, e.periodEnd,
                                e.bonus.value, e.deduction.value)
    ensures r.Ok? ==> forall sid :: sid in st.salaries && sid != e.id ==> r.value.salaries[sid] == st.salaries[sid]
    ensures r.Ok? ==> r.value.(salaries := st.salaries) == st
  {
    if routeId != e.id then Err(NotFound)
    else if !RecordResolves(st, e.id) then Err(NotFound)
    else if e.bonus.None? || e.deduction.None? then Err(InvalidAmount)
    else if e.periodStart > e.periodEnd then Err(StartAfterEnd)
    else if Clash(st.salaries, e.employeeId, Some(e.id), e.periodStart, e.periodEnd) then Err(Overlap)
    else
      var s := st.salaries[e.id];
      var s' := s.(periodStart := e.periodStart, periodEnd := e.periodEnd,
                   bonus := e.bonus.value, deduction := e.deduction.value);
      Ok(st.(salaries := st.salaries[e.id := s']))
  }

  /** NotFound is reported exactly for an id mismatch or a record that is
      not found with its employee and position. */
  lemma EditSalaryNotFound(st: Store, routeId: int, e: SalaryEdit)
    ensures EditSalary(st, routeId, e) == Err(NotFound) <==> routeId != e.id || !RecordResolves(st, e.id)
  {
  }

  /** With the record loaded, an amount that does not parse is reported as
      such, before the period and clash checks. */
  lemma EditSalaryInvalidAmount(st: Store, e: SalaryEdit)
    requires RecordResolves(st, e.id)
    ensures EditSalary(st, e.id, e) == Err(InvalidAmount) <==> e.bonus.None? || e.deduction.None?
  {
  }

  /** Past the id checks and the amounts, the edit is refused exactly for a
      reversed period or for a clash with another record of the posted
      employee; the record being edited never clashes with itself. */
  lemma EditSalaryRules(st: Store, e: SalaryEdit)
    requires RecordResolves(st, e.id) && e.bonus.Some? && e.deduction.Some?
    ensures EditSalary(st, e.id, e) == Err(StartAfterEnd) <==> e.periodStart > e.periodEnd
    ensures EditSalary(st, e.id, e) == Err(Overlap)
            <==> e.periodStart <= e.periodEnd
                 && exists sid :: sid in st.salaries && sid != e.id && st.salaries[sid].employeeId == e.employeeId
                      && EndpointInside(st.salaries[sid], e.periodStart, e.periodEnd)
    ensures EditSalary(st, e.id, e).Ok?
            <==> e.periodStart <= e.periodEnd && !Clash(st.salaries, e.employeeId, Some(e.id), e.periodStart, e.periodEnd)
  {
  }

  /** The edit checks neither dates against today nor termination: an edit
      that moves a period into the future, or touches a terminated
      employee's record, goes through where a create with the same fields is
      refused. */
  lemma EditSalaryWeakerThanCreate(st: Store, e: SalaryEdit, now: Date)
    requires RecordResolves(st, e.id) && e.bonus.Some? && e.deduction.Some?
    requires e.periodStart <= e.periodEnd
    requires !Clash(st.salaries, e.employeeId, Some(e.id), e.periodStart, e.periodEnd)
    requires e.periodEnd > now
             || (e.employeeId in st.employees && st.employees[e.employeeId].isTerminated)
    ensures EditSalary(st, e.id, e).Ok?
    ensures CreateSalary(st, SalaryDraft(e.employeeId, e.periodStart, e.periodEnd,
                                         e.bonus.value, e.deduction.value), now).Err?
    ensures EmployeeLoads(st, e.employeeId) && e.periodEnd > now
            ==> CreateSalary(st, SalaryDraft(e.employeeId, e.periodStart, e.periodEnd,
                                             e.bonus.value, e.deduction.value), now) == Err(FuturePeriod)
  {
  }

  /** Repeating a successful edit changes nothing more. */
  lemma EditSalaryIdempotent(st: Store, routeId: int, e: SalaryEdit)
    requires EditSalary(st, routeId, e).Ok?
    ensures EditSalary(EditSalary(st, routeId, e).value, routeId, e) == EditSalary(st, routeId, e)
  {
    var st' := EditSalary(st, routeId, e).value;
    var s' := st'.salaries[e.id];
    assert st'.salaries[e.id := s'] == st'.salaries;
  }

  /** The clash query looks at the POSTED employee id, not the record's own:
      with a different id posted, a record can be moved onto another period
      of its own employee. */
  lemma EditSalaryChecksPostedEmployee()
    ensures var st := Store(map[1 := SampleEmployee(), 2 := SampleEmployee()], map[],
                            map[1 := Salary(1, 0, 10, 0, 0), 2 := Salary(1, 20, 30, 0, 0)],
                            map[1 := Position("Clerk", 0)], {}, {}, {});
            var r := EditSalary(st, 1, SalaryEdit(1, 2, 20, 30, Some(0), Some(0)));
            && WellOrdered(st) && NoOverlap(st)
            && r.Ok? && r.value.salaries[1] == r.value.salaries[2]
            && !NoOverlap(r.value)
  {
  }

  // ---------------------------------------------------------------------
  // Delete

  /** DeleteConfirmed: removes the salary with the given id, or reports
      NotFound. No other check is made. */
  function DeleteSalary(st: Store, id: int): (r: Result<Store>)
    ensures r.Ok? <==> id in st.salaries
    ensures r.Err? ==> r.error == NotFound
    ensures r.Ok? ==> r.value.salaries.Keys == st.salaries.Keys - {id}
    ensures r.Ok? ==> forall sid :: sid in r.value.salaries ==> r.value.salaries[sid] == st.salaries[sid]
    ensures r.Ok? ==> r.value.(salaries := st.salaries) == st
  {
    if id in st.salaries then Ok(st.(salaries := st.salaries - {id})) else Err(NotFound)
  }

  /** Deleting the salary a create just added gives back the original store. */
  lemma CreateThenDeleteRestores(st: Store, d: SalaryDraft, now: Date)
    requires CreateSalary(st, d, now).Ok?
    ensures var c := CreateSalary(st, d, now).value;
            DeleteSalary(c.store, c.id) == Ok(st)
  {
    var c := CreateSalary(st, d, now).value;
    assert c.store.salaries - {c.id} == st.salaries;
  }

  // ---------------------------------------------------------------------
  // Referential integrity

  /** The salary handlers never leave a salary pointing at no employee. */
  lemma SalaryHandlersKeepLinks(st: Store, d: SalaryDraft, now: Date, routeId: int, e: SalaryEdit, id: int)
    requires Linked(st)
    ensures CreateSalary(st, d, now).Ok? ==> Linked(CreateSalary(st, d, now).value.store)
    ensures EditSalary(st, routeId, e).Ok? ==> Linked(EditSalary(st, routeId, e).value)
    ensures DeleteSalary(st, id).Ok? ==> Linked(DeleteSalary(st, id).value)
  {
  }

  // ---------------------------------------------------------------------
  // Statement

  /** The total of a salary statement: the position's base salary plus the
      bonus minus the deduction. */
  function Total(baseSalary: Money, s: Salary): Money {
    baseSalary + s.bonus - s.deduction
  }

  /** ViewPdf: the total of salary `id` through its employee's position, or
      NotFound when the salary is not found with both. */
  function StatementTotal(st: Store, id: int): (r: Result<Money>)
    ensures r.Ok? <==> RecordResolves(st, id)
    ensures r.Err? ==> r.error == NotFound
    ensures r.Ok? ==>
              var s := st.salaries[id];
              r.value == st.positions[st.employees[s.employeeId].positionId].baseSalary + s.bonus - s.deduction
  {
    if !RecordResolves(st, id) then Err(NotFound)
    else
      var s := st.salaries[id];
      Ok(Total(st.positions[st.employees[s.employeeId].positionId].baseSalary, s))
  }

  /** In a linked store every salary has a statement. */
  lemma StatementExistsWhenLinked(st: Store, id: int)
    requires Linked(st)
    ensures StatementTotal(st, id).Ok? <==> id in st.salaries
  {
  }

  /** In a linked store, the salary a create adds has a statement totalling
      the employee's base salary plus the submitted bonus minus the submitted
      deduction, and every earlier statement is unchanged. */
  lemma CreateSalaryStatement(st: Store, d: SalaryDraft, now: Date, other: int)
    requires Linked(st) && CreateSalary(st, d, now).Ok?
    ensures var c := CreateSalary(st, d, now).value;
            StatementTotal(c.store, c.id)
            == Ok(st.positions[st.employees[d.employeeId].positionId].baseSalary + d.bonus - d.deduction)
    ensures var c := CreateSalary(st, d, now).value;
            other != c.id ==> StatementTotal(c.store, other) == StatementTotal(st, other)
  {
  }

  /** A successful edit moves the edited record's statement total by exactly
      the change in bonus minus deduction, and leaves every other statement
      as it was. */
  lemma EditSalaryShiftsTotal(st: Store, routeId: int, e: SalaryEdit, other: int)
    requires EditSalary(st, routeId, e).Ok?
    ensures var st' := EditSalary(st, routeId, e).value;
            var s := st.salaries[e.id];
            && StatementTotal(st, e.id).Ok? && StatementTotal(st', e.id).Ok?
            && StatementTotal(st', e.id).value - StatementTotal(st, e.id).value
               == (e.bonus.value - e.deduction.value) - (s.bonus - s.deduction)
    ensures other != e.id ==> StatementTotal(EditSalary(st, routeId, e).value, other) == StatementTotal(st, other)
  {
  }
}

=== FILE: scenarios.dfy ===
/** One employee's story through both controllers: hired, paid for the
    current month, refused an overlapping period, terminated, refused a
    salary, rehired, and refused a second rehire. */
module Scenarios {
  import opened Types
  import opened Calendar
  import opened Entities
  import opened SalaryRules
  import opened EmployeeLifecycle

  /** A store holding one company, office and city, and a position paying 5000.00. */
  function Reference(): Store {
    Store(map[], map[], map[], map[1 := Position("Developer", 500000)], {1}, {1}, {1})
  }

  function JohnDoe(hireDate: Date): EmployeeDraft {
    EmployeeDraft("John", None, "Doe", 1, 1, 1, hireDate, "Main", "1", None, None, 1, EmployeeAddress)
  }

  /** Hired two years back and paid for the default period of the last day
      of May 2024 with a bonus of 200.00 and a deduction of 50.00, the
      statement totals 5150.00; a period ten days earlier overlaps. */
  lemma PaidForTheMonth()
    ensures var today := CalendarDate(2024, 5, 31);
            var (first, last) := DefaultPeriod(today);
            var now := DayNumber(today);
            var hired := CreateEmployee(Reference(), JohnDoe(now - 730));
            hired.Ok?
            && var paid := CreateSalary(hired.value.store,
                                        SalaryDraft(hired.value.id, DayNumber(first), DayNumber(last), 20000, 5000), now);
               && paid.Ok?
               && StatementTotal(paid.value.store, paid.value.id) == Ok(515000)
               && CreateSalary(paid.value.store,
                               SalaryDraft(hired.value.id, DayNumber(first) - 10, DayNumber(last) - 10, 0, 0), now)
                  == Err(Overlap)
  {
  }

  /** Terminated, the employee gets no new salary; rehired, the flag and
      date are cleared and the hire date is today; a second rehire is a bad
      request. */
  lemma TerminatedThenRehired(st: Store, id: int, start: Date, end: Date, t: Date, now: Date)
    requires EmployeeLoads(st, id) && !st.employees[id].isTerminated
    requires start <= end <= now
    requires forall sid :: sid in st.salaries ==> st.salaries[sid].employeeId != id
    ensures var gone := Terminate(st, id, t);
            && gone.Ok?
            && CreateSalary(gone.value, SalaryDraft(id, start, end, 0, 0), now) == Err(TerminatedEmployee)
            && var back := Rehire(gone.value, id, now);
               && back.Ok?
               && !back.value.employees[id].isTerminated
               && back.value.employees[id].terminationDate == None
               && back.value.employees[id].hireDate == now
               && Rehire(back.value, id, now) == Err(BadRequest)
  {
  }
}

=== FILE: types.dfy ===
/** Shared vocabulary of the payroll model: optional values, the outcome of a
    request handler, and the scalar types dates and amounts are kept in. */
module Types {

  /** A calendar day, counted as days since 0001-01-01 (a .NET `DateTime`'s
      ticks divided by the ticks per day). Period dates are taken as whole
      days; a time of day posted with a period date is not modelled. */
  type Date = int

  /** A decimal(18,2) amount, kept in cents. */
  type Money = int

  /** A nullable field of the source (`string?`, `DateTime?`). */
  datatype Option<+T> = None | Some(value: T)

  /** What a rejected request reports back to the caller. Every rejection
      leaves the store as it was. */
  datatype Error =
    | NotFound              // a route or body id names no record, or the record's required
                            // related rows are not there to join
    | BadRequest            // rehire of an employee who is not terminated
    | StartAfterEnd         // period start after period end
    | FuturePeriod          // period start or end after today
    | Overlap               // "A salary record already exists for this period."
    | TerminatedEmployee    // salary for a terminated employee
    | InvalidAmount         // bonus or deduction text that does not parse
    | RelatedEntityMissing  // company, position, office or city not found

  /** Either the value a handler produced or the reason it refused. */
  datatype Result<+T> = Ok(value: T) | Err(error: Error)
}
